=== FILE: README.md ===
# Calculator transports: dispatch and error mapping

The calculator page sends each arithmetic request through one of three
transports to one of three backends, and turns whatever comes back into the
value it displays:

- the **JSON-RPC server** (`backend/jsonrpc_server.py`) answers a JSON-RPC 2.0
  call with a result object or an error object, using the codes of section 5.1
  of the JSON-RPC 2.0 specification (-32601 "Method not found", -32603 for
  division by zero and for unusable params);
- the **REST server** (`backend/fastapi_server.py`) always answers
  `{"result": …}`, with a number or an `"Error: …"` text;
- the **command-line script** (`backend/script.py`) prints one line and exits
  1 only for an unknown operation;
- the **page** (`app/page.tsx`) builds the request for the selected mode,
  normalises the reply (`result ?? error.message ?? "Error"` in JSON-RPC mode),
  maps any thrown error to `"Error: " + message`, coerces unparsable input to
  0, resets the form, and colours a result red when it is a string containing
  "error".

The model is functional: immutable datatypes for requests, responses and page
state, and total functions over them. Numbers are Dafny `real`s, so the
arithmetic is exact; the interest is in the branch and error structure. The
JSON-RPC server looks operations up in a table, modelled as `Arith`; the REST
server and the script each spell out their own if/elif chain on the operation
string, and their contracts relate those chains to `Arith`, so the lemmas
comparing the backends compare three separately written dispatches.

Modules: `Wrappers` (Option/Result), `JsonValues` (decoded JSON), `Arith`
(the operation table), `JsonRpcServer`, `RestServer`, `CliScript`, `Text`
(lower-casing and substring search), `Page`, and `EndToEnd` (round trips from
the page through a server and back).

The model makes visible that the backends report a division by zero in three
shapes: an error object (JSON-RPC), a success-shaped text (REST) and a text
with exit status 0 (script). It also shows that the page does not colour the
JSON-RPC error messages as errors: "Division by zero" and "Method not found"
contain no "error", so they are displayed in the normal colour, while the REST
texts for the same failures are red (`EndToEnd.FailureColourByMode`).

## Model

| member | source | states |
|---|---|---|
| `Arith.Parse` | backend/jsonrpc_server.py:24-31 | exactly the four names add, subtract, multiply, divide select an operation, and the operation found has that name; every other string selects none |
| `Arith.Apply` | backend/jsonrpc_server.py:25-28 | the only refusal is divide with divisor 0; otherwise the result solves the operation's defining equation (r - b = a, r + b = a, r / b = a, r * b = a) |
| `JsonRpcServer.DecodeRequest` | backend/jsonrpc_server.py:18-22 | a request is read from exactly the object bodies whose method is not a list or object; the name is the method exactly when it is a string; absent params mean the empty list, null params stay null, a list of numbers becomes those numbers in order, and any other params value is kept as it came; `id` is the request's own id or null when absent |
| `JsonValues.Member` | backend/jsonrpc_server.py:20-22 | Python's `request.get(key)` on an object: a value exactly when the key is present, and then that member |
| `JsonRpcServer.ParamsOf` | backend/jsonrpc_server.py:21 | a present `params` member is null, a list of numbers kept in order, or any other value kept as it came, and exactly one of these |
| `JsonRpcServer.Lookup` | backend/jsonrpc_server.py:24-31 | `method_name in methods`: an operation exactly when the method is one of the four table keys, and the one of that name |
| `JsonRpcServer.DecodeEncodeRequest` | backend/jsonrpc_server.py:20-22 | the server reads back exactly the request a client writes, for every name, params value and id |
| `JsonRpcServer.Unpack` | backend/jsonrpc_server.py:35 | `a, b = params` succeeds exactly for a two-element list of numbers, yielding its elements in order; every list, string or object of another length fails with Python's not-enough or too-many message whatever its items; null and booleans fail with the non-iterable message, numbers with the int or float one; no outcome is modelled only for a two-element string, object or mixed list |
| `JsonRpcServer.Handle` | backend/jsonrpc_server.py:31-42 | version "2.0" and the request id echoed; an unknown method gives -32601 "Method not found" for every params value; params that cannot be unpacked into two values (another length, null, a number, a boolean) give -32603 with the exception message; division by zero gives -32603 "Division by zero", also when the first item is not a number and when the divisor is `false`; a result exactly when the method is known, there are two numbers and no zero divisor, and then it is the operation's value; a response is missing only for a known method whose params are a two-element iterable other than two numbers and not such a refused divide |
| `JsonRpcServer.DivideChecksDivisorFirst` | backend/jsonrpc_server.py:28-38 | `divide` with a two-item list whose second item is 0 or `false` is answered with HTTP 200 and -32603 "Division by zero" and the id echoed, whatever the first item is |
| `JsonRpcServer.WrongShapeIsInternalError` | backend/jsonrpc_server.py:31-42 | a known method whose params are not a two-value iterable is answered with HTTP 200 and an error object with code -32603, whatever the params' items |
| `JsonRpcServer.Encode` | backend/jsonrpc_server.py:32-42 | the response object has exactly one of `result` and `error`, its keys are `jsonrpc`, `id` and that one, and it carries the id unchanged |
| `JsonRpcServer.EncodeDecodeResponse` | backend/jsonrpc_server.py:32-42 | reading an encoded response back gives the response that was encoded, so the object loses nothing |
| `JsonRpcServer.DoPost` | backend/jsonrpc_server.py:15-48 | a reply exists exactly when the body decodes and the handler answers; it is HTTP 200 with a JSON body for errors as well as results, and the body encodes the handler's response |
| `JsonRpcServer.UnknownMethodIgnoresParams` | backend/jsonrpc_server.py:31-35 | the method check comes before params are unpacked: an unknown method yields -32601 whatever the params are, including null, wrong-length lists and any other JSON value |
| `JsonRpcServer.UnknownMethodAnswered` | backend/jsonrpc_server.py:20-32 | every object body whose method is hashable but not one of the four names gets HTTP 200 with the -32601 error object and its id echoed, whatever its params (string, object, number, boolean, null or any list) |
| `RestServer.DecodeBody` | backend/fastapi_server.py:16-25 | a body is accepted exactly when it has numeric `num1`, `num2` and a string `operation`, and the request carries those values |
| `RestServer.Calculate` | backend/fastapi_server.py:27-39 | total over every operation string: a number exactly for a known operation that is not a division by zero, equal to the operation's value; "Error: Division by zero" for a zero divisor; "Error: Unknown operation" for any other name; every text starts "Error: " |
| `RestServer.Encode` | backend/fastapi_server.py:41 | the response has the single key `result`, holding the number or the text |
| `CliScript.Execute` | backend/script.py:10-25 | exactly one line is printed on every path; exit 1 exactly for an unknown operation (with "Error: Unknown operation"); division by zero prints "Error: Division by zero" and exits 0; known operations print their value and exit 0 |
| `CliScript.AgreesWithRest` | backend/script.py:10-25 | the script's own if/elif chain prints exactly the value the REST endpoint's separate chain returns under `result` for the same inputs, and exits 1 exactly when that value is the unknown-operation text |
| `Text.LowerChar` | app/page.tsx:61 | the per-character step of `toLowerCase`: an ASCII capital becomes the small letter 32 code points further on, and every other character is kept |
| `Text.Lower` | app/page.tsx:61 | lower-casing keeps the length and maps every character through the ASCII lower-case mapping |
| `Text.Contains` | app/page.tsx:61 | `includes` holds exactly when some index starts an occurrence of the pattern |
| `Page.Initial` | app/page.tsx:8-11 | the page starts with both operands 0, result 0 and the local-process mode |
| `Page.CoerceInput` | app/page.tsx:82-83 | unparsable input becomes 0, a parsed number is kept, and the stored operand is 0 exactly when the input was unparsable or zero |
| `Page.EditNum1` | app/page.tsx:82 | editing the first input stores its coerced value and changes nothing else |
| `Page.EditNum2` | app/page.tsx:83 | editing the second input stores its coerced value and changes nothing else |
| `Page.OperandsBody` | app/page.tsx:16-20 | the local-process and REST payload has exactly the keys num1, num2, operation carrying the form's values |
| `Page.Envelope` | app/page.tsx:35-40 | the JSON-RPC call object has exactly the keys jsonrpc "2.0", method = operation, params = [num1, num2], id = 1 |
| `Page.BuildCall` | app/page.tsx:15-45 | exactly one transport is called and it is the one the selected mode names, with the payload that mode sends |
| `Page.ErrorText` | app/page.tsx:50-51 | the text is "Error: " followed by the thrown error's message, or by "undefined" when it has none |
| `Page.Prop` | app/page.tsx:31 | a property read on a non-null value: defined exactly when the value is an object with that key, and then that member; `undefined` otherwise (also used for `data.error` and `.message` at app/page.tsx:47) |
| `Page.ReadRest` | app/page.tsx:30-31 | REST mode shows `data.result`, undefined when absent; a null body throws the null-read TypeError |
| `Page.ErrorMessage` | app/page.tsx:47 | `data.error?.message` is defined exactly when there is an error object with a message, and is that message |
| `Page.ReadRpc` | app/page.tsx:46-47 | a result that is not null or undefined is kept (so 0 stays 0); otherwise the error's message; otherwise "Error"; the value shown is never null or undefined; a null body throws |
| `Page.Settle` | app/page.tsx:14-52 | any rejection in any mode becomes "Error: " + message; local-process mode shows the reply itself; REST mode shows `data.result` of a non-null body; JSON-RPC mode shows the `??` chain of a non-null body and never null or undefined; a null body in the HTTP modes shows the TypeError text |
| `Page.Calculate` | app/page.tsx:13-53 | a calculation changes only the result, and the new result is what the call chosen by the current mode settles to |
| `Page.CalculateUsesSelectedTransportOnly` | app/page.tsx:14-49 | the new state depends only on how the call of the selected mode settles; the other modes' transports are never consulted |
| `Page.Reset` | app/page.tsx:55-59 | reset yields the initial form with the mode kept |
| `Page.ResultColor` | app/page.tsx:61 | red exactly when the result is a string whose lower-cased text has an occurrence of "error"; numbers are never red |
| `Page.ErrorTextIsRed` | app/page.tsx:50-61 | every "Error: …" text is shown red, whatever the message |
| `Page.RejectionIsRed` | app/page.tsx:50-51 | a failure thrown in any of the three modes is shown as "Error: " + message, in red |
| `Page.FallbackIsRed` | app/page.tsx:47 | the JSON-RPC fallback "Error" is shown red |
| `Page.ResetForgetsForm` | app/page.tsx:55-59 | reset forgets operands and result entirely and is idempotent |
| `Page.SwitchRoutesToNewMode` | app/page.tsx:15-34 | after switching mode the next call goes to the new mode's transport only, never to the previous one |
| `EndToEnd.EnvelopeDecodes` | backend/jsonrpc_server.py:20-22 | the server reads back from the page's envelope the method name, the two operands in order and id 1 |
| `EndToEnd.RpcRoundTrip` | app/page.tsx:35-47 | in JSON-RPC mode the page shows the operation's value, "Division by zero" for a zero divisor, and "Method not found" for an unknown operation |
| `EndToEnd.RestRoundTrip` | app/page.tsx:25-31 | in REST mode the page shows whatever the server put under `result`: the number, "Error: Division by zero" or "Error: Unknown operation" |
| `EndToEnd.RpcAgreesWithRest` | backend/jsonrpc_server.py:24-40 | comparing the table lookup with the REST endpoint's chain: for a known method with two operands the JSON-RPC server returns a result exactly when the REST server returns a number, and the same number; otherwise the division-by-zero error in both |
| `EndToEnd.DivisionByZeroShapes` | backend/jsonrpc_server.py:36-38 | a zero divisor gives an error object with code -32603 (JSON-RPC), `{"result": "Error: Division by zero"}` (REST) and one printed error line with exit status 0 (script) |
| `EndToEnd.DivisionByZeroTextNotRed` | app/page.tsx:61 | the JSON-RPC message "Division by zero" is shown in the normal colour |
| `EndToEnd.MethodNotFoundTextNotRed` | app/page.tsx:61 | the JSON-RPC message "Method not found" is shown in the normal colour |
| `EndToEnd.RestFailureIsRed` | app/page.tsx:31 | in REST mode an unknown operation and a division by zero are both shown red |
| `EndToEnd.RpcFailureIsNotRed` | app/page.tsx:47 | in JSON-RPC mode an unknown operation and a division by zero are both shown in the normal colour |
| `EndToEnd.FailureColourByMode` | app/page.tsx:47-61 | the same failure is red in REST mode and in the normal colour in JSON-RPC mode |

## Left out

- Floating point: operands and results are exact reals. IEEE rounding, overflow to infinity, NaN and `-0.0` are not modelled; neither is Python's formatting of a float in `print(f"{result}")` (a printed number is a `NumberLine` holding the value) nor `parseFloat`'s treatment of "Infinity".
- Transport I/O: the HTTP servers, CORS headers, `do_OPTIONS`, server start-up, `fetch` and `res.json()` are not modelled. The page takes the transport as a function from the call it makes to how that call settled.
- JSON text: `json.loads`, `json.dumps` and `JSON.stringify` are not modelled; requests and responses are decoded `Json` values.
- `JsonRpcServer.DecodeRequest`: a body that is not an object, or whose method is a list or an object, yields no request, because the handler raises before answering (`request.get` on a non-object, an unhashable table lookup) and no response is sent.
- `JsonRpcServer.Handle`: for a known method whose params are a two-element string, object or list that is not two numbers, no response is modelled, except a divide whose second list item is 0 or `false`, which is modelled as the "Division by zero" error. Such params unpack, and the outcome depends on Python's operators on the values, which the model's number-only results cannot express: `add` joins two strings or lists, `multiply` repeats a string or list by an integer, `True + 1` is 2, and other pairs raise a TypeError whose text names Python types. Every other params value is modelled.
- `JsonRpcServer.Unpack`: for a number, the message names `int` or `float` according to how the JSON text was written; the model has one number type and picks `int` for integral values, so its contract states only that the message is one of the two.
- `JsonRpcServer.Unpack`: the messages are CPython's wording up to 3.13; later versions add ", got N" to the too-many-values message.
- `RestServer.DecodeBody`: the framework's coercions to float (numeric strings, booleans) and its validation-error response are not modelled; such bodies yield no request.
- `CliScript.Execute`: the script's reading of its argument (`json.loads(sys.argv[1])`, missing keys) is not modelled; it starts from decoded operands and operation.
- The Electron main process (main.js): spawning the script, collecting its output and turning its exit status into a resolved or rejected call is not part of this model; neither is the context bridge (preload.js) nor the type declarations.
- `Text.Lower`: only ASCII letters are lower-cased; JavaScript's `toLowerCase` also maps other Unicode letters.
- `Page.Settle`: the message of the TypeError raised when a response body is `null` is V8's wording.
- React state hooks, asynchronous ordering and late or overlapping responses are not modelled; a calculation is one step from state to state.

=== FILE: arith.dfy ===
/**
 * The operation table: the four names the backends accept and what each
 * computes. The JSON-RPC server spells it as a dictionary of lambdas, the
 * REST server and the command-line script as their own if/elif chains; all
 * three accept the same names and refuse under the same condition (divisor
 * 0), though each reports the refusal in its own shape.
 */
module Arith {
  import opened Wrappers

  datatype Op = Add | Subtract | Multiply | Divide

  /** The wire name of an operation. */
  function Name(op: Op): string
  {
    match op
    case Add => "add"
    case Subtract => "subtract"
    case Multiply => "multiply"
    case Divide => "divide"
  }

  /** The operation a name selects; no operation for any other string. */
  function Parse(s: string): (r: Option<Op>)
    ensures r.Some? ==> Name(r.value) == s
    ensures r.None? ==> forall op: Op :: Name(op) != s
  {
    if s == "add" then Some(Add)
    else if s == "subtract" then Some(Subtract)
    else if s == "multiply" then Some(Multiply)
    else if s == "divide" then Some(Divide)
    else None
  }

  /** Every operation is found again from its name. */
  lemma ParseName(op: Op)
    ensures Parse(Name(op)) == Some(op)
  {
  }

  /**
   * Applies an operation; the only refusal is division by zero. Each result
   * is characterised by the equation it solves rather than by the operator.
   */
  function Apply(op: Op, a: real, b: real): (r: Option<real>)
    ensures r.None? <==> op == Divide && b == 0.0
    ensures r.Some? && op == Add ==> r.value - b == a
    ensures r.Some? && op == Subtract ==> r.value + b == a
    ensures r.Some? && op == Multiply && b != 0.0 ==> r.value / b == a
    ensures r.Some? && op == Multiply && b == 0.0 ==> r.value == 0.0
    ensures r.Some? && op == Divide ==> r.value * b == a
  {
    match op
    case Add => Some(a + b)
    case Subtract => Some(a - b)
    case Multiply => QuotientOfProduct(a, b); Some(a * b)
    case Divide => if b != 0.0 then ProductOfQuotient(a, b); Some(a / b) else None
  }

  /** The value of each operation, for bodies that spell the table out themselves. */
  lemma ApplyValues(a: real, b: real)
    ensures Apply(Add, a, b) == Some(a + b)
    ensures Apply(Subtract, a, b) == Some(a - b)
    ensures Apply(Multiply, a, b) == Some(a * b)
    ensures b != 0.0 ==> Apply(Divide, a, b) == Some(a / b)
  {
  }

  lemma QuotientOfProduct(a: real, b: real)
    ensures b != 0.0 ==> (a * b) / b == a
  {
  }

  lemma ProductOfQuotient(a: real, b: real)
    requires b != 0.0
    ensures (a / b) * b == a
  {
  }
}

=== FILE: end_to_end.dfy ===
/**
 * Properties of whole round trips: what the page sends, what each backend
 * answers and what the page finally shows, including how the three backends
 * report a division by zero in three different shapes.
 */
module EndToEnd {
  import opened Wrappers
  import opened JsonValues
  import Arith
  import JsonRpcServer
  import RestServer
  import CliScript
  import Page
  import Text

  /**
   * What the page shows after a JSON-RPC mode round trip with the real server.
   * A request the server left unanswered would make `fetch` reject; the
   * browser's message for that is not modelled.
   */
  function RpcShown(operation: string, num1: real, num2: real): Page.JsValue
  {
    match JsonRpcServer.DoPost(Page.Envelope(operation, num1, num2))
    case None => Page.Settle(Page.JsonRpc, Page.Rejected(None))
    case Some(reply) => Page.Settle(Page.JsonRpc, Page.Resolved(reply.body))
  }

  /** What the page shows after a REST mode round trip with the real server. */
  function RestShown(operation: string, num1: real, num2: real): Page.JsValue
  {
    match RestServer.DecodeBody(Page.OperandsBody(num1, num2, operation))
    case None => Page.Settle(Page.FastApi, Page.Rejected(None))
    case Some(req) => Page.Settle(Page.FastApi, Page.Resolved(RestServer.Encode(RestServer.Calculate(req))))
  }

  /** The server reads back exactly the call the page's envelope describes. */
  lemma EnvelopeDecodes(operation: string, num1: real, num2: real)
    ensures JsonRpcServer.DecodeRequest(Page.Envelope(operation, num1, num2))
              == Some(JsonRpcServer.Request(Some(operation), JsonRpcServer.Listed([num1, num2]), JNum(Page.RequestId)))
  {
    var body := Page.Envelope(operation, num1, num2);
    var params := body.fields["params"];
    assert params.JArr? && JsonRpcServer.AllNumbers(params.items);
    assert JsonRpcServer.Numbers(params.items) == [num1, num2];
  }

  /**
   * JSON-RPC mode end to end: the number for a known operation, otherwise the
   * server's error message, which the page shows verbatim.
   */
  lemma RpcRoundTrip(operation: string, num1: real, num2: real)
    ensures Arith.Parse(operation).None? ==> RpcShown(operation, num1, num2) == Page.Defined(JStr("Method not found"))
    ensures operation == "divide" && num2 == 0.0 ==> RpcShown(operation, num1, num2) == Page.Defined(JStr("Division by zero"))
    ensures Arith.Parse(operation).Some? && Arith.Apply(Arith.Parse(operation).value, num1, num2).Some? ==>
              RpcShown(operation, num1, num2) == Page.Defined(JNum(Arith.Apply(Arith.Parse(operation).value, num1, num2).value))
  {
  }

  /**
   * REST mode end to end: whatever `calculate` put under `result` is shown,
   * the number or the "Error: …" text.
   */
  lemma RestRoundTrip(operation: string, num1: real, num2: real)
    ensures RestShown(operation, num1, num2)
              == Page.Defined(RestServer.Encode(RestServer.Calculate(RestServer.CalcRequest(num1, num2, operation))).fields["result"])
    ensures Arith.Parse(operation).None? ==> RestShown(operation, num1, num2) == Page.Defined(JStr("Error: Unknown operation"))
    ensures operation == "divide" && num2 == 0.0 ==> RestShown(operation, num1, num2) == Page.Defined(JStr("Error: Division by zero"))
  {
  }

  /**
   * For a known method called with two numbers, the JSON-RPC server answers
   * with a result exactly when the REST server returns a number, and with
   * the same number.
   */
  lemma RpcAgreesWithRest(operation: string, num1: real, num2: real, id: Json)
    requires Arith.Parse(operation).Some?
    ensures JsonRpcServer.Handle(JsonRpcServer.Request(Some(operation), JsonRpcServer.Listed([num1, num2]), id)).Some?
    ensures var outcome := JsonRpcServer.Handle(JsonRpcServer.Request(Some(operation), JsonRpcServer.Listed([num1, num2]), id)).value.outcome;
            var value := RestServer.Calculate(RestServer.CalcRequest(num1, num2, operation));
            && (outcome.Answer? <==> value.Number?)
            && (outcome.Answer? ==> outcome.value == value.n)
            && (outcome.Fault? ==> outcome == JsonRpcServer.Fault(JsonRpcServer.InternalError, "Division by zero")
                                   && value == RestServer.Text(RestServer.DivisionByZero))
  {
  }

  /**
   * A division by zero in each backend: the JSON-RPC server answers with an
   * error object, the REST server with a success-shaped text under `result`,
   * and the script prints a text but still exits 0.
   */
  lemma DivisionByZeroShapes(num1: real, id: Json)
    ensures JsonRpcServer.Handle(JsonRpcServer.Request(Some("divide"), JsonRpcServer.Listed([num1, 0.0]), id))
              == Some(JsonRpcServer.Response(JsonRpcServer.Version, JsonRpcServer.Fault(JsonRpcServer.InternalError, "Division by zero"), id))
    ensures RestServer.Encode(RestServer.Calculate(RestServer.CalcRequest(num1, 0.0, "divide")))
              == JObj(map["result" := JStr("Error: Division by zero")])
    ensures CliScript.Execute(CliScript.Args(num1, 0.0, "divide"))
              == CliScript.Run([CliScript.TextLine("Error: Division by zero")], 0)
  {
  }

  /** "division by zero" has no "error" in it: the only 'e' is too close to the end. */
  lemma DivisionByZeroTextNotRed()
    ensures Page.ResultColor(Page.Defined(JStr("Division by zero"))) == Page.NormalColor
  {
    var t := Text.Lower("Division by zero");
    assert t == "division by zero";
    assert t[..12] == "division by ";
    Text.MissingStart(t, "error");
  }

  /** "method not found" has no 'r', so no "error" in it either. */
  lemma MethodNotFoundTextNotRed()
    ensures Page.ResultColor(Page.Defined(JStr("Method not found"))) == Page.NormalColor
  {
    var t := Text.Lower("Method not found");
    assert t == "method not found";
    Text.MissingCharacter(t, "error", 1);
  }

  /** REST mode shows both of its failure texts in the error colour. */
  lemma RestFailureIsRed(operation: string, num1: real, num2: real)
    requires Arith.Parse(operation).None? || (operation == "divide" && num2 == 0.0)
    ensures Page.ResultColor(RestShown(operation, num1, num2)) == Page.ErrorColor
  {
    var shown := RestShown(operation, num1, num2);
    assert shown.Defined? && shown.json.JStr? && shown.json.s[..7] == "Error: " by {
      RestRoundTrip(operation, num1, num2);
    }
    var lowered := Text.Lower(shown.json.s);
    assert lowered[..5] == "error";
    assert Text.OccursAt(lowered, "error", 0);
  }

  /** JSON-RPC mode shows both of its failure messages in the normal colour. */
  lemma RpcFailureIsNotRed(operation: string, num1: real, num2: real)
    requires Arith.Parse(operation).None? || (operation == "divide" && num2 == 0.0)
    ensures Page.ResultColor(RpcShown(operation, num1, num2)) == Page.NormalColor
  {
    RpcRoundTrip(operation, num1, num2);
    if Arith.Parse(operation).None? {
      MethodNotFoundTextNotRed();
    } else {
      DivisionByZeroTextNotRed();
    }
  }

  /**
   * The same failure is coloured differently by mode: an unknown operation or
   * a division by zero is red in REST mode but shown in the normal colour in
   * JSON-RPC mode, whose messages do not contain the word "error".
   */
  lemma FailureColourByMode(operation: string, num1: real, num2: real)
    requires Arith.Parse(operation).None? || (operation == "divide" && num2 == 0.0)
    ensures Page.ResultColor(RestShown(operation, num1, num2)) == Page.ErrorColor
    ensures Page.ResultColor(RpcShown(operation, num1, num2)) == Page.NormalColor
  {
    RestFailureIsRed(operation, num1, num2);
    RpcFailureIsNotRed(operation, num1, num2);
  }
}

=== FILE: fastapi_server.dfy ===
/**
 * The REST calculator endpoint, `POST /calculate`: it always answers
 * `{"result": …}`, carrying either the number or an "Error: …" string.
 */
module RestServer {
  import opened Wrappers
  import opened JsonValues
  import Arith

  /** The validated body: two numbers and an operation name. */
  datatype CalcRequest = CalcRequest(num1: real, num2: real, operation: string)

  /** The value placed under `result`. */
  datatype Value = Number(n: real) | Text(s: string)

  const DivisionByZero: string := "Error: Division by zero"
  const UnknownOperation: string := "Error: Unknown operation"

  /**
   * The body the framework hands to `calculate`: an object with numeric
   * `num1`, `num2` and a string `operation`. Other members are ignored. Any
   * other body is refused by the framework before `calculate` runs.
   */
  function DecodeBody(body: Json): (r: Option<CalcRequest>)
    ensures r.Some? <==>
              && body.JObj?
              && "num1" in body.fields && body.fields["num1"].JNum?
              && "num2" in body.fields && body.fields["num2"].JNum?
              && "operation" in body.fields && body.fields["operation"].JStr?
    ensures r.Some? ==>
              && body.fields["num1"] == JNum(r.value.num1)
              && body.fields["num2"] == JNum(r.value.num2)
              && body.fields["operation"] == JStr(r.value.operation)
  {
    match (Member(body, "num1"), Member(body, "num2"), Member(body, "operation"))
    case (Some(JNum(a)), Some(JNum(b)), Some(JStr(op))) => Some(CalcRequest(a, b, op))
    case _ => None
  }

  /**
   * `calculate`: total over every operation string. A number comes back
   * exactly when the operation is known and is not a division by zero.
   */
  function Calculate(req: CalcRequest): (v: Value)
    ensures v.Number? <==> Arith.Parse(req.operation).Some? && !(req.operation == "divide" && req.num2 == 0.0)
    ensures v.Number? ==> Arith.Apply(Arith.Parse(req.operation).value, req.num1, req.num2) == Some(v.n)
    ensures Arith.Parse(req.operation).None? ==> v == Text(UnknownOperation)
    ensures req.operation == "divide" && req.num2 == 0.0 ==> v == Text(DivisionByZero)
    ensures v.Text? ==> v.s[..7] == "Error: "
  {
    var num1, num2, op := req.num1, req.num2, req.operation;
    if op == "add" then Number(num1 + num2)
    else if op == "subtract" then Number(num1 - num2)
    else if op == "multiply" then
      Arith.ApplyValues(num1, num2);
      Number(num1 * num2)
    else if op == "divide" then
      if num2 != 0.0 then Number(num1 / num2) else Text(DivisionByZero)
    else Text(UnknownOperation)
  }

  /** The response object `{"result": …}`: one key, whatever happened. */
  function Encode(v: Value): (j: Json)
    ensures j.JObj? && j.fields.Keys == {"result"}
    ensures v.Number? <==> j.fields["result"].JNum?
    ensures v.Number? ==> j.fields["result"].n == v.n
    ensures v.Text? ==> j.fields["result"] == JStr(v.s)
  {
    match v
    case Number(n) => JObj(map["result" := JNum(n)])
    case Text(s) => JObj(map["result" := JStr(s)])
  }
}

=== FILE: json_values.dfy ===
/**
 * Decoded JSON documents, as the backends see them after `json.loads` and the
 * page sees them after `res.json()`. Numbers are mathematical reals: the
 * binary floating-point encoding is not part of the model.
 */
module JsonValues {
  import opened Wrappers

  datatype Json =
    | JNull
    | JBool(b: bool)
    | JNum(n: real)
    | JStr(s: string)
    | JArr(items: seq<Json>)
    | JObj(fields: map<string, Json>)

  /** Python's `d.get(key)` on an object: the member when present. */
  function Member(v: Json, key: string): (r: Option<Json>)
    ensures r.Some? <==> v.JObj? && key in v.fields
    ensures r.Some? ==> r.value == v.fields[key]
  {
    if v.JObj? && key in v.fields then Some(v.fields[key]) else None
  }
}

=== FILE: jsonrpc_server.dfy ===
/**
 * The JSON-RPC 2.0 calculator endpoint: one POST handler that looks the
 * method up in the operation table, unpacks two positional parameters and
 * answers with a result object or an error object. Error codes are those of
 * section 5.1 of the JSON-RPC 2.0 specification.
 */
module JsonRpcServer {
  import opened Wrappers
  import opened JsonValues
  import Arith

  const Version: string := "2.0"
  /** "Method not found" (section 5.1 of the JSON-RPC 2.0 specification). */
  const MethodNotFound: int := -32601
  /** "Internal error": used for division by zero and for unusable params. */
  const InternalError: int := -32603
  const HttpOk: int := 200

  /**
   * The `params` member after `request.get("params", [])`: a list of numbers
   * (the empty list when the member is absent), JSON null, or any other value,
   * kept as it came.
   */
  datatype Params = Listed(values: seq<real>) | NullParams | OtherParams(raw: Json)

  /**
   * A decoded call. `name` is the method when it is a string; every other
   * method (absent, null, a number, a boolean) is simply not in the table.
   * `id` is echoed as given, JSON null when absent.
   */
  datatype Request = Request(name: Option<string>, params: Params, id: Json)

  /** What the call produced: a `result` member or an `error` member. */
  datatype Outcome = Answer(value: real) | Fault(code: int, message: string)

  datatype Response = Response(jsonrpc: string, outcome: Outcome, id: Json)

  /** The HTTP reply the handler sends. */
  datatype Reply = Reply(status: int, contentType: string, body: Json)

  /** A JSON list all of whose items are numbers. */
  predicate AllNumbers(items: seq<Json>)
  {
    forall i :: 0 <= i < |items| ==> items[i].JNum?
  }

  function Numbers(items: seq<Json>): (xs: seq<real>)
    requires AllNumbers(items)
    ensures |xs| == |items|
    ensures forall i :: 0 <= i < |items| ==> items[i] == JNum(xs[i])
  {
    seq(|items|, i requires 0 <= i < |items| => items[i].n)
  }

  /** The `params` value `request.get("params", [])` yields when the member is present. */
  function ParamsOf(raw: Json): (p: Params)
    ensures raw.JNull? ==> p == NullParams
    ensures raw.JArr? && AllNumbers(raw.items) ==> p == Listed(Numbers(raw.items))
    ensures !raw.JNull? && !(raw.JArr? && AllNumbers(raw.items)) ==> p == OtherParams(raw)
  {
    if raw.JNull? then NullParams
    else if raw.JArr? && AllNumbers(raw.items) then Listed(Numbers(raw.items))
    else OtherParams(raw)
  }

  /**
   * Reads `method`, `params` and `id` off the request body. There is no
   * request when the handler raises before answering: the body is not an
   * object (`request.get` fails), or the method is a list or an object
   * (unhashable, so the table lookup fails).
   */
  function DecodeRequest(body: Json): (r: Option<Request>)
    ensures r.Some? <==>
              body.JObj? && !("method" in body.fields && (body.fields["method"].JArr? || body.fields["method"].JObj?))
    ensures r.Some? ==> r.value.id == (if "id" in body.fields then body.fields["id"] else JNull)
    ensures r.Some? ==> (r.value.name.Some? <==> "method" in body.fields && body.fields["method"].JStr?)
    ensures r.Some? && r.value.name.Some? ==> body.fields["method"] == JStr(r.value.name.value)
    ensures r.Some? && "params" !in body.fields ==> r.value.params == Listed([])
    ensures r.Some? && "params" in body.fields && body.fields["params"].JNull? ==> r.value.params == NullParams
    ensures r.Some? && "params" in body.fields && body.fields["params"].JArr? && AllNumbers(body.fields["params"].items) ==>
              r.value.params == Listed(Numbers(body.fields["params"].items))
    ensures r.Some? && "params" in body.fields && !body.fields["params"].JNull?
              && !(body.fields["params"].JArr? && AllNumbers(body.fields["params"].items)) ==>
              r.value.params == OtherParams(body.fields["params"])
    ensures r.Some? && "params" in body.fields && r.value.params.OtherParams? ==>
              r.value.params.raw == body.fields["params"]
  {
    if !body.JObj? then None
    else
      var f := body.fields;
      var m := Member(body, "method");
      if m.Some? && (m.value.JArr? || m.value.JObj?) then None
      else
        var name := if m.Some? && m.value.JStr? then Some(m.value.s) else None;
        var ps := if "params" in f then ParamsOf(f["params"]) else Listed([]);
        var id := if "id" in f then f["id"] else JNull;
        Some(Request(name, ps, id))
  }

  /** A request as a client would write it: `method` only when there is a name. */
  function EncodeRequest(req: Request): (j: Json)
    ensures j.JObj? && "id" in j.fields && j.fields["id"] == req.id
    ensures "method" in j.fields <==> req.name.Some?
  {
    var params :=
      match req.params
      case Listed(xs) => JArr(seq(|xs|, i requires 0 <= i < |xs| => JNum(xs[i])))
      case NullParams => JNull
      case OtherParams(raw) => raw;
    var fields := map["jsonrpc" := JStr(Version), "params" := params, "id" := req.id];
    JObj(if req.name.Some? then fields["method" := JStr(req.name.value)] else fields)
  }

  /** `OtherParams` holds only values that are neither null nor a list of numbers. */
  predicate Canonical(req: Request)
  {
    req.params.OtherParams? ==> !(req.params.raw.JNull? || (req.params.raw.JArr? && AllNumbers(req.params.raw.items)))
  }

  /** The server reads back every request a client writes. */
  lemma DecodeEncodeRequest(req: Request)
    requires Canonical(req)
    ensures DecodeRequest(EncodeRequest(req)) == Some(req)
  {
    var j := EncodeRequest(req);
    if req.params.Listed? {
      var raw := j.fields["params"];
      assert raw.JArr? && AllNumbers(raw.items);
      assert Numbers(raw.items) == req.params.values;
    }
  }

  /**
   * How many values iterating a JSON value yields in Python: the items of a
   * list, the characters of a string, the keys of an object. Null, numbers
   * and booleans are not iterable.
   */
  function Size(raw: Json): Option<nat>
  {
    match raw
    case JArr(items) => Some(|items|)
    case JStr(s) => Some(|s|)
    case JObj(fields) => Some(|fields|)
    case _ => None
  }

  /** The number of values `a, b = params` would see, if params are iterable. */
  function Count(p: Params): Option<nat>
  {
    match p
    case Listed(xs) => Some(|xs|)
    case NullParams => None
    case OtherParams(raw) => Size(raw)
  }

  /** CPython's message when an iterable of `n` values is unpacked into two names. */
  function ArityMessage(n: nat): string
    requires n != 2
  {
    if n == 0 then "not enough values to unpack (expected 2, got 0)"
    else if n == 1 then "not enough values to unpack (expected 2, got 1)"
    else "too many values to unpack (expected 2)"
  }

  /**
   * `a, b = params`. Exactly two numbers unpack. Any iterable of another
   * length, and null, numbers and booleans, raise before an operator runs,
   * with CPython's message. A two-element iterable that is not two numbers
   * (a string, an object, a mixed list) unpacks into values that are not
   * numbers; this function yields nothing for it, and `Handle` says which
   * of those calls the model still answers.
   */
  function Unpack(p: Params): (r: Option<Result<(real, real), string>>)
    ensures r.None? <==> p.OtherParams? && Count(p) == Some(2)
    ensures (r.Some? && r.value.Success?) <==> p.Listed? && |p.values| == 2
    ensures r.Some? && r.value.Success? ==> [r.value.value.0, r.value.value.1] == p.values
    ensures Count(p) == Some(0) ==> r == Some(Failure("not enough values to unpack (expected 2, got 0)"))
    ensures Count(p) == Some(1) ==> r == Some(Failure("not enough values to unpack (expected 2, got 1)"))
    ensures Count(p).Some? && Count(p).value > 2 ==> r == Some(Failure("too many values to unpack (expected 2)"))
    ensures p.NullParams? || p == OtherParams(JNull) ==> r == Some(Failure("cannot unpack non-iterable NoneType object"))
    ensures p.OtherParams? && p.raw.JBool? ==> r == Some(Failure("cannot unpack non-iterable bool object"))
    ensures p.OtherParams? && p.raw.JNum? ==>
              r.Some? && r.value.Failure? &&
              r.value.error in {"cannot unpack non-iterable int object", "cannot unpack non-iterable float object"}
  {
    match p
    case NullParams => Some(Failure("cannot unpack non-iterable NoneType object"))
    case Listed(xs) =>
      if |xs| == 2 then Some(Success((xs[0], xs[1]))) else Some(Failure(ArityMessage(|xs|)))
    case OtherParams(raw) =>
      match raw
      case JNull => Some(Failure("cannot unpack non-iterable NoneType object"))
      case JBool(_) => Some(Failure("cannot unpack non-iterable bool object"))
      case JNum(n) =>
        Some(Failure(if n == n.Floor as real then "cannot unpack non-iterable int object"
                     else "cannot unpack non-iterable float object"))
      case _ => if Size(raw).value == 2 then None else Some(Failure(ArityMessage(Size(raw).value)))
  }

  /**
   * A two-element list whose second item Python's `b != 0` finds equal to
   * zero: the number 0 or `false`. The divide lambda tests this before it
   * divides, so it refuses such a pair whatever the first item is.
   */
  predicate ZeroDivisor(raw: Json)
  {
    raw.JArr? && |raw.items| == 2 && (raw.items[1] == JNum(0.0) || raw.items[1] == JBool(false))
  }

  /** The operation the request names, if the table has it (`method_name in methods`). */
  function Lookup(req: Request): (r: Option<Arith.Op>)
    ensures r.Some? <==> req.name.Some? && req.name.value in {"add", "subtract", "multiply", "divide"}
    ensures r.Some? ==> Arith.Name(r.value) == req.name.value
  {
    if req.name.Some? then Arith.Parse(req.name.value) else None
  }

  /**
   * The response `do_POST` builds for a decoded request. There is none only
   * for a known method whose params are a two-element iterable other than
   * two numbers, except a divide whose second item is 0 or `false`, which
   * is refused as a division by zero before any operator runs. What Python's
   * operators do with the remaining pairs (concatenation, repetition, a
   * TypeError) is not modelled.
   */
  function Handle(req: Request): (r: Option<Response>)
    ensures r.None? <==>
              Lookup(req).Some? && req.params.OtherParams? && Count(req.params) == Some(2) &&
              !(Lookup(req) == Some(Arith.Divide) && ZeroDivisor(req.params.raw))
    ensures Lookup(req) == Some(Arith.Divide) && req.params.OtherParams? && ZeroDivisor(req.params.raw) ==>
              r == Some(Response(Version, Fault(InternalError, "Division by zero"), req.id))
    ensures Lookup(req).Some? && Count(req.params) != Some(2) ==>
              r.Some? && r.value.outcome.Fault? && r.value.outcome.code == InternalError
    ensures r.Some? ==> r.value.jsonrpc == Version && r.value.id == req.id
    ensures Lookup(req).None? ==> r == Some(Response(Version, Fault(MethodNotFound, "Method not found"), req.id))
    ensures Lookup(req).Some? && Unpack(req.params).Some? && Unpack(req.params).value.Failure? ==>
              r == Some(Response(Version, Fault(InternalError, Unpack(req.params).value.error), req.id))
    ensures Lookup(req) == Some(Arith.Divide) && req.params.Listed? && |req.params.values| == 2 && req.params.values[1] == 0.0 ==>
              r == Some(Response(Version, Fault(InternalError, "Division by zero"), req.id))
    ensures (r.Some? && r.value.outcome.Answer?) <==>
              Lookup(req).Some? && req.params.Listed? && |req.params.values| == 2 &&
              !(Lookup(req) == Some(Arith.Divide) && req.params.values[1] == 0.0)
    ensures r.Some? && r.value.outcome.Answer? ==>
              Arith.Apply(Lookup(req).value, req.params.values[0], req.params.values[1]) == Some(r.value.outcome.value)
    ensures r.Some? && r.value.outcome.Fault? ==> r.value.outcome.code in {MethodNotFound, InternalError}
  {
    var outcome :=
      match Lookup(req)
      case None => Some(Fault(MethodNotFound, "Method not found"))
      case Some(op) =>
        match Unpack(req.params)
        case None =>
          if op == Arith.Divide && ZeroDivisor(req.params.raw) then Some(Fault(InternalError, "Division by zero"))
          else None
        case Some(Failure(msg)) => Some(Fault(InternalError, msg))
        case Some(Success(pair)) =>
          match Arith.Apply(op, pair.0, pair.1)
          case None => Some(Fault(InternalError, "Division by zero"))
          case Some(v) => Some(Answer(v));
    if outcome.None? then None else Some(Response(Version, outcome.value, req.id))
  }

  /** The error object `{"code": …, "message": …}`. */
  function ErrorObject(code: int, message: string): Json
  {
    JObj(map["code" := JNum(code as real), "message" := JStr(message)])
  }

  /** The response as the JSON object `json.dumps` is given. */
  function Encode(resp: Response): (j: Json)
    ensures j.JObj?
    ensures ("result" in j.fields) != ("error" in j.fields)
    ensures "result" in j.fields <==> resp.outcome.Answer?
    ensures j.fields.Keys == {"jsonrpc", "id", if resp.outcome.Answer? then "result" else "error"}
    ensures j.fields["jsonrpc"] == JStr(resp.jsonrpc) && j.fields["id"] == resp.id
  {
    match resp.outcome
    case Answer(v) =>
      JObj(map["jsonrpc" := JStr(resp.jsonrpc), "result" := JNum(v), "id" := resp.id])
    case Fault(code, message) =>
      JObj(map["jsonrpc" := JStr(resp.jsonrpc), "error" := ErrorObject(code, message), "id" := resp.id])
  }

  /** Reads a response object back; the inverse of Encode. */
  function DecodeResponse(j: Json): Option<Response>
  {
    if !(j.JObj? && "jsonrpc" in j.fields && j.fields["jsonrpc"].JStr? && "id" in j.fields) then None
    else
      var f := j.fields;
      if f.Keys == {"jsonrpc", "id", "result"} && f["result"].JNum? then
        Some(Response(f["jsonrpc"].s, Answer(f["result"].n), f["id"]))
      else if f.Keys == {"jsonrpc", "id", "error"} && f["error"].JObj?
              && "code" in f["error"].fields && "message" in f["error"].fields
              && f["error"].fields["code"].JNum? && f["error"].fields["message"].JStr?
              && f["error"].fields["code"].n == f["error"].fields["code"].n.Floor as real then
        Some(Response(f["jsonrpc"].s,
                      Fault(f["error"].fields["code"].n.Floor, f["error"].fields["message"].s), f["id"]))
      else None
  }

  lemma EncodeDecodeResponse(resp: Response)
    ensures DecodeResponse(Encode(resp)) == Some(resp)
  {
  }

  /**
   * `do_POST` on a request body: the reply for every body the model covers,
   * always HTTP 200 with a JSON body, whether the call succeeded or not.
   */
  function DoPost(body: Json): (r: Option<Reply>)
    ensures r.Some? <==> DecodeRequest(body).Some? && Handle(DecodeRequest(body).value).Some?
    ensures r.Some? ==> r.value.status == HttpOk && r.value.contentType == "application/json"
    ensures r.Some? ==> DecodeResponse(r.value.body) == Handle(DecodeRequest(body).value)
  {
    match DecodeRequest(body)
    case None => None
    case Some(req) =>
      match Handle(req)
      case None => None
      case Some(resp) =>
        EncodeDecodeResponse(resp);
        Some(Reply(HttpOk, "application/json", Encode(resp)))
  }

  /** The method lookup comes first: an unknown method never inspects params. */
  lemma UnknownMethodIgnoresParams(name: Option<string>, p1: Params, p2: Params, id: Json)
    requires Lookup(Request(name, p1, id)).None?
    ensures Handle(Request(name, p1, id)) == Handle(Request(name, p2, id))
    ensures Handle(Request(name, p1, id)) == Some(Response(Version, Fault(MethodNotFound, "Method not found"), id))
  {
  }

  /**
   * Any object body whose method is not one of the four names is answered
   * with -32601, whatever its params: a string, an object, a number, a
   * boolean, null or a list of any length or content.
   */
  lemma UnknownMethodAnswered(body: Json)
    requires body.JObj?
    requires "method" in body.fields ==>
               !body.fields["method"].JArr? && !body.fields["method"].JObj? &&
               (body.fields["method"].JStr? ==> Arith.Parse(body.fields["method"].s).None?)
    ensures DoPost(body) == Some(Reply(HttpOk, "application/json",
              Encode(Response(Version, Fault(MethodNotFound, "Method not found"),
                              if "id" in body.fields then body.fields["id"] else JNull))))
  {
    var req := DecodeRequest(body).value;
    assert Lookup(req).None?;
  }

  /**
   * The divide lambda tests `b != 0` before dividing, so a zero or `false`
   * divisor is refused as a division by zero even when the first item is
   * not a number.
   */
  lemma DivideChecksDivisorFirst(body: Json)
    requires body.JObj? && "method" in body.fields && body.fields["method"] == JStr("divide")
    requires "params" in body.fields && ZeroDivisor(body.fields["params"])
    ensures DoPost(body).Some? && DoPost(body).value.status == HttpOk
    ensures DecodeResponse(DoPost(body).value.body) ==
              Some(Response(Version, Fault(InternalError, "Division by zero"),
                            if "id" in body.fields then body.fields["id"] else JNull))
  {
  }

  /**
   * A known method whose params cannot be unpacked into two values (an
   * iterable of another length, null, a number or a boolean) is answered with
   * HTTP 200 and -32603, whatever the items of the params are.
   */
  lemma WrongShapeIsInternalError(body: Json)
    requires body.JObj? && "method" in body.fields && body.fields["method"].JStr?
    requires Arith.Parse(body.fields["method"].s).Some?
    requires "params" in body.fields && Size(body.fields["params"]) != Some(2)
    ensures DoPost(body).Some? && DoPost(body).value.status == HttpOk
    ensures DecodeResponse(DoPost(body).value.body).Some?
    ensures DecodeResponse(DoPost(body).value.body).value.outcome.Fault?
    ensures DecodeResponse(DoPost(body).value.body).value.outcome.code == InternalError
  {
  }
}

=== FILE: page.dfy ===
/**
 * The calculator page: form state, the request each transport mode sends,
 * how each mode turns what comes back into the displayed result, reset, input
 * coercion and the colour rule that marks a result as an error.
 */
module Page {
  import opened Wrappers
  import opened JsonValues
  import Text

  /** The transport the user selected. */
  datatype Mode = Ipc | FastApi | JsonRpc

  /** A JavaScript value as the page holds it: `undefined`, or a JSON value. */
  datatype JsValue = Undefined | Defined(json: Json)

  /** The page's state hooks. */
  datatype State = State(num1: real, num2: real, result: JsValue, mode: Mode)

  /** What a number input yields under `parseFloat`: not-a-number or a number. */
  datatype Parsed = NaN | Finite(value: real)

  /** A request as handed to one transport. */
  datatype Call =
    | IpcCall(channel: string, args: Json)
    | RestCall(url: string, body: Json)
    | RpcCall(url: string, body: Json)

  /** How the awaited transport settled: the decoded value, or a thrown error and its `message`. */
  datatype Reply = Resolved(value: Json) | Rejected(message: Option<string>)

  const IpcChannel: string := "run-python"
  const RestUrl: string := "http://127.0.0.1:8000/calculate"
  const RpcUrl: string := "http://localhost:4000"
  const RequestId: real := 1.0
  /** The message V8 gives the TypeError raised by reading `result` off `null`. */
  const NullReadMessage: string := "Cannot read properties of null (reading 'result')"
  const ErrorColor: string := "#e53e3e"
  const NormalColor: string := "#2b6cb0"

  function Initial(): (s: State)
    ensures s.mode == Ipc && s.result == Defined(JNum(0.0))
    ensures s.num1 == 0.0 && s.num2 == 0.0
  {
    State(0.0, 0.0, Defined(JNum(0.0)), Ipc)
  }

  /** `parseFloat(text) || 0`: an unparsable input (and zero) is stored as 0. */
  function CoerceInput(p: Parsed): (r: real)
    ensures p.NaN? ==> r == 0.0
    ensures p.Finite? ==> r == p.value
    ensures r == 0.0 <==> p.NaN? || p.value == 0.0
  {
    if p.NaN? || p.value == 0.0 then 0.0 else p.value
  }

  /** Editing the first operand changes that operand and nothing else. */
  function EditNum1(s: State, p: Parsed): (r: State)
    ensures r.num1 == CoerceInput(p)
    ensures r.num2 == s.num2 && r.result == s.result && r.mode == s.mode
  {
    s.(num1 := CoerceInput(p))
  }

  /** Editing the second operand changes that operand and nothing else. */
  function EditNum2(s: State, p: Parsed): (r: State)
    ensures r.num2 == CoerceInput(p)
    ensures r.num1 == s.num1 && r.result == s.result && r.mode == s.mode
  {
    s.(num2 := CoerceInput(p))
  }

  /** `{num1, num2, operation}`, the payload of the local-process and REST modes. */
  function OperandsBody(num1: real, num2: real, operation: string): (j: Json)
    ensures j.JObj? && j.fields.Keys == {"num1", "num2", "operation"}
    ensures j.fields["num1"] == JNum(num1) && j.fields["num2"] == JNum(num2)
    ensures j.fields["operation"] == JStr(operation)
  {
    JObj(map["num1" := JNum(num1), "num2" := JNum(num2), "operation" := JStr(operation)])
  }

  /** The JSON-RPC 2.0 call object `{jsonrpc: "2.0", method, params: [num1, num2], id: 1}`. */
  function Envelope(operation: string, num1: real, num2: real): (j: Json)
    ensures j.JObj? && j.fields.Keys == {"jsonrpc", "method", "params", "id"}
    ensures j.fields["jsonrpc"] == JStr("2.0") && j.fields["id"] == JNum(RequestId)
    ensures j.fields["method"] == JStr(operation)
    ensures j.fields["params"] == JArr([JNum(num1), JNum(num2)])
  {
    JObj(map["jsonrpc" := JStr("2.0"), "method" := JStr(operation),
             "params" := JArr([JNum(num1), JNum(num2)]), "id" := JNum(RequestId)])
  }

  /** The one call `handleCalculate` makes, chosen by the selected mode alone. */
  function BuildCall(s: State, operation: string): (c: Call)
    ensures c.IpcCall? <==> s.mode == Ipc
    ensures c.RestCall? <==> s.mode == FastApi
    ensures c.RpcCall? <==> s.mode == JsonRpc
    ensures c.IpcCall? ==> c == IpcCall(IpcChannel, OperandsBody(s.num1, s.num2, operation))
    ensures c.RestCall? ==> c == RestCall(RestUrl, OperandsBody(s.num1, s.num2, operation))
    ensures c.RpcCall? ==> c == RpcCall(RpcUrl, Envelope(operation, s.num1, s.num2))
  {
    match s.mode
    case Ipc => IpcCall(IpcChannel, OperandsBody(s.num1, s.num2, operation))
    case FastApi => RestCall(RestUrl, OperandsBody(s.num1, s.num2, operation))
    case JsonRpc => RpcCall(RpcUrl, Envelope(operation, s.num1, s.num2))
  }

  /** `Error: ${error.message}`; a thrown value without a message prints as "undefined". */
  function ErrorText(message: Option<string>): (t: string)
    ensures |t| >= 7 && t[..7] == "Error: "
    ensures message.Some? ==> t[7..] == message.value
    ensures message.None? ==> t[7..] == "undefined"
  {
    "Error: " + (if message.Some? then message.value else "undefined")
  }

  /** `null` and `undefined`, the values `??` and `?.` skip. */
  predicate Nullish(v: JsValue)
  {
    v == Undefined || v == Defined(JNull)
  }

  /** Reading property `key` of a value that is not null: its member, or undefined. */
  function Prop(v: Json, key: string): (r: JsValue)
    requires !v.JNull?
    ensures r.Defined? <==> v.JObj? && key in v.fields
    ensures r.Defined? ==> r.json == v.fields[key]
  {
    if v.JObj? && key in v.fields then Defined(v.fields[key]) else Undefined
  }

  /** REST mode: `data.result`, which throws when the body is `null`. */
  function ReadRest(data: Json): (r: Result<JsValue, string>)
    ensures r.Failure? <==> data.JNull?
    ensures r.Failure? ==> r.error == NullReadMessage
    ensures r.Success? ==> r.value == Prop(data, "result")
  {
    if data.JNull? then Failure(NullReadMessage) else Success(Prop(data, "result"))
  }

  /** `data.error?.message`: the error's message, undefined when there is no error object. */
  function ErrorMessage(data: Json): (r: JsValue)
    requires !data.JNull?
    ensures r.Defined? <==>
              data.JObj? && "error" in data.fields && data.fields["error"].JObj? && "message" in data.fields["error"].fields
    ensures r.Defined? ==> r.json == data.fields["error"].fields["message"]
  {
    var error := Prop(data, "error");
    if Nullish(error) then Undefined else Prop(error.json, "message")
  }

  /**
   * JSON-RPC mode: `data.result ?? data.error?.message ?? "Error"`. A result
   * that is present and not null is kept, even when it is 0 or false; the
   * outcome is never null or undefined.
   */
  function ReadRpc(data: Json): (r: Result<JsValue, string>)
    ensures r.Failure? <==> data.JNull?
    ensures r.Failure? ==> r.error == NullReadMessage
    ensures r.Success? ==> !Nullish(r.value)
    ensures r.Success? && !Nullish(Prop(data, "result")) ==> r.value == Prop(data, "result")
    ensures r.Success? && Nullish(Prop(data, "result")) && !Nullish(ErrorMessage(data)) ==>
              r.value == ErrorMessage(data)
    ensures r.Success? && Nullish(Prop(data, "result")) && Nullish(ErrorMessage(data)) ==>
              r.value == Defined(JStr("Error"))
  {
    if data.JNull? then Failure(NullReadMessage)
    else
      var result := Prop(data, "result");
      if !Nullish(result) then Success(result)
      else
        var message := ErrorMessage(data);
        if !Nullish(message) then Success(message) else Success(Defined(JStr("Error")))
  }

  /** The value `setResult` receives once the selected transport has settled. */
  function Settle(mode: Mode, reply: Reply): (v: JsValue)
    ensures reply.Rejected? ==> v == Defined(JStr(ErrorText(reply.message)))
    ensures reply.Resolved? && mode == Ipc ==> v == Defined(reply.value)
    ensures reply.Resolved? && reply.value.JNull? && mode != Ipc ==> v == Defined(JStr(ErrorText(Some(NullReadMessage))))
    ensures reply.Resolved? && mode == FastApi && !reply.value.JNull? ==> v == Prop(reply.value, "result")
    ensures reply.Resolved? && mode == JsonRpc && !reply.value.JNull? ==> v == ReadRpc(reply.value).value
    ensures reply.Resolved? && mode == JsonRpc ==> !Nullish(v)
  {
    match reply
    case Rejected(message) => Defined(JStr(ErrorText(message)))
    case Resolved(data) =>
      var read :=
        match mode
        case Ipc => Success(Defined(data))
        case FastApi => ReadRest(data)
        case JsonRpc => ReadRpc(data);
      match read
      case Success(v) => v
      case Failure(m) => Defined(JStr(ErrorText(Some(m))))
  }

  /**
   * `handleCalculate(operation)`: sends the one call the current mode selects
   * through `transport` and stores what it settles to. Only `result` changes.
   */
  function Calculate(s: State, operation: string, transport: Call -> Reply): (r: State)
    ensures r.num1 == s.num1 && r.num2 == s.num2 && r.mode == s.mode
    ensures r.result == Settle(s.mode, transport(BuildCall(s, operation)))
  {
    s.(result := Settle(s.mode, transport(BuildCall(s, operation))))
  }

  /** `handleReset`: both operands and the result back to 0; the mode is kept. */
  function Reset(s: State): (r: State)
    ensures r == Initial().(mode := s.mode)
  {
    State(0.0, 0.0, Defined(JNum(0.0)), s.mode)
  }

  /** The colour rule: a string result whose lower-cased text contains "error". */
  predicate ShowsError(v: JsValue)
  {
    v.Defined? && v.json.JStr? && Text.Contains(Text.Lower(v.json.s), "error")
  }

  /** `resultColor`: red exactly for a string that contains "error" in any letter case. */
  function ResultColor(v: JsValue): (c: string)
    ensures c == ErrorColor <==>
              v.Defined? && v.json.JStr? && exists i :: Text.OccursAt(Text.Lower(v.json.s), "error", i)
    ensures c == ErrorColor || c == NormalColor
    ensures v.Defined? && v.json.JNum? ==> c == NormalColor
  {
    if ShowsError(v) then ErrorColor else NormalColor
  }

  /** Every "Error: …" text, whatever follows the prefix, is shown in the error colour. */
  lemma ErrorTextIsRed(message: Option<string>)
    ensures ResultColor(Defined(JStr(ErrorText(message)))) == ErrorColor
  {
  }

  /** A failure thrown in any mode is shown as "Error: …", in the error colour. */
  lemma RejectionIsRed(mode: Mode, message: Option<string>)
    ensures Settle(mode, Rejected(message)) == Defined(JStr("Error: " + (if message.Some? then message.value else "undefined")))
    ensures ResultColor(Settle(mode, Rejected(message))) == ErrorColor
  {
    ErrorTextIsRed(message);
  }

  /** The JSON-RPC fallback text "Error" is shown in the error colour. */
  lemma FallbackIsRed()
    ensures ResultColor(Defined(JStr("Error"))) == ErrorColor
  {
  }

  /**
   * A calculation consults only the transport the current mode selects: two
   * transports that settle the selected call alike give the same new state,
   * however differently they would have answered any other call.
   */
  lemma CalculateUsesSelectedTransportOnly(s: State, operation: string, t1: Call -> Reply, t2: Call -> Reply)
    requires t1(BuildCall(s, operation)) == t2(BuildCall(s, operation))
    ensures Calculate(s, operation, t1) == Calculate(s, operation, t2)
  {
  }

  /** Reset does not depend on the form's contents and is idempotent. */
  lemma ResetForgetsForm(s: State, t: State)
    requires s.mode == t.mode
    ensures Reset(s) == Reset(t)
    ensures Reset(Reset(s)) == Reset(s)
  {
  }

  /**
   * After switching mode, the next calculation goes to the newly selected
   * transport only, whatever the previous mode was.
   */
  lemma SwitchRoutesToNewMode(s: State, mode: Mode, operation: string)
    ensures var c := BuildCall(s.(mode := mode), operation);
            (c.IpcCall? <==> mode == Ipc) && (c.RestCall? <==> mode == FastApi) && (c.RpcCall? <==> mode == JsonRpc)
    ensures mode != s.mode ==> BuildCall(s.(mode := mode), operation) != BuildCall(s, operation)
  {
  }
}

=== FILE: script.dfy ===
/**
 * The command-line backend: reads the operands and the operation from its
 * argument, prints one line and exits. Only an unknown operation exits with
 * a failure status; a division by zero prints an error text and exits 0.
 */
module CliScript {
  import opened Wrappers
  import Arith
  import RestServer

  datatype Args = Args(num1: real, num2: real, operation: string)

  /** A printed line: a number as Python formats it, or a text. */
  datatype Line = NumberLine(n: real) | TextLine(s: string)

  /** What a run leaves behind: the lines on standard output and the exit status. */
  datatype Run = Run(stdout: seq<Line>, exitCode: int)

  function Execute(args: Args): (r: Run)
    ensures |r.stdout| == 1
    ensures r.exitCode == 1 <==> Arith.Parse(args.operation).None?
    ensures r.exitCode == 0 <==> Arith.Parse(args.operation).Some?
    ensures Arith.Parse(args.operation).None? ==> r.stdout[0] == TextLine("Error: Unknown operation")
    ensures args.operation == "divide" && args.num2 == 0.0 ==> r == Run([TextLine("Error: Division by zero")], 0)
    ensures r.stdout[0].NumberLine? <==>
              Arith.Parse(args.operation).Some? && !(args.operation == "divide" && args.num2 == 0.0)
    ensures r.stdout[0].NumberLine? ==>
              Arith.Apply(Arith.Parse(args.operation).value, args.num1, args.num2) == Some(r.stdout[0].n)
  {
    var num1, num2, op := args.num1, args.num2, args.operation;
    if op == "add" then Run([NumberLine(num1 + num2)], 0)
    else if op == "subtract" then Run([NumberLine(num1 - num2)], 0)
    else if op == "multiply" then
      Arith.ApplyValues(num1, num2);
      Run([NumberLine(num1 * num2)], 0)
    else if op == "divide" then
      if num2 != 0.0 then Run([NumberLine(num1 / num2)], 0) else Run([TextLine("Error: Division by zero")], 0)
    else Run([TextLine("Error: Unknown operation")], 1)
  }

  /** The line a REST result value would print as. */
  function LineOf(v: RestServer.Value): Line
  {
    match v
    case Number(n) => NumberLine(n)
    case Text(s) => TextLine(s)
  }

  /**
   * The script prints exactly what the REST endpoint returns under `result`;
   * the two differ only in that the script signals an unknown operation by
   * its exit status as well.
   */
  lemma AgreesWithRest(args: Args)
    ensures Execute(args).stdout == [LineOf(RestServer.Calculate(RestServer.CalcRequest(args.num1, args.num2, args.operation)))]
    ensures Execute(args).exitCode == (if RestServer.Calculate(RestServer.CalcRequest(args.num1, args.num2, args.operation)) == RestServer.Text(RestServer.UnknownOperation) then 1 else 0)
  {
  }
}

=== FILE: text.dfy ===
/**
 * The two string operations the page's colour rule needs: lower-casing and
 * substring search (`toLowerCase` and `includes`). Lower-casing covers the
 * ASCII letters only.
 */
module Text {

  function LowerChar(c: char): (d: char)
    ensures 'A' <= c <= 'Z' ==> 'a' <= d <= 'z' && d as int - c as int == 32
    ensures !('A' <= c <= 'Z') ==> d == c
  {
    if 'A' <= c <= 'Z' then (c as int + 32) as char else c
  }

  function Lower(s: string): (r: string)
    ensures |r| == |s|
    ensures forall i :: 0 <= i < |s| ==> r[i] == LowerChar(s[i])
  {
    seq(|s|, i requires 0 <= i < |s| => LowerChar(s[i]))
  }

  /** Lower-casing leaves no ASCII capital behind, so doing it twice changes nothing. */
  lemma LowerIdempotent(s: string)
    ensures Lower(Lower(s)) == Lower(s)
    ensures forall i :: 0 <= i < |s| ==> !('A' <= Lower(s)[i] <= 'Z')
  {
  }

  /** `pat` occurs in `t` starting at index `i`. */
  ghost predicate OccursAt(t: string, pat: string, i: int)
  {
    0 <= i && i + |pat| <= |t| && t[i..i + |pat|] == pat
  }

  /** `t.includes(pat)`: some index of `t` starts an occurrence of `pat`. */
  function Contains(t: string, pat: string): (b: bool)
    ensures b <==> exists i :: OccursAt(t, pat, i)
    decreases |t|
  {
    if |t| < |pat| then
      assert forall i :: !OccursAt(t, pat, i);
      false
    else if t[..|pat|] == pat then
      assert OccursAt(t, pat, 0);
      true
    else
      var rest := Contains(t[1..], pat);
      ShiftOccurrence(t, pat);
      assert !OccursAt(t, pat, 0);
      assert (exists i :: OccursAt(t, pat, i)) ==> (exists j :: 1 <= j && OccursAt(t, pat, j));
      rest
  }

  /** Occurrences in `t[1..]` are the occurrences in `t` after index 0, shifted by one. */
  lemma ShiftOccurrence(t: string, pat: string)
    requires |t| > 0
    ensures (exists i :: OccursAt(t[1..], pat, i)) <==> (exists j :: 1 <= j && OccursAt(t, pat, j))
  {
    if i :| OccursAt(t[1..], pat, i) {
      assert t[1..][i..i + |pat|] == t[i + 1..i + 1 + |pat|];
      assert OccursAt(t, pat, i + 1);
    }
    if j :| 1 <= j && OccursAt(t, pat, j) {
      assert t[1..][j - 1..j - 1 + |pat|] == t[j..j + |pat|];
      assert OccursAt(t[1..], pat, j - 1);
    }
  }

  /** A text lacks `pat` when one of `pat`'s characters never appears in it. */
  lemma MissingCharacter(t: string, pat: string, k: int)
    requires 0 <= k < |pat| && pat[k] !in t
    ensures !Contains(t, pat)
  {
  }

  /** A text lacks `pat` when no position early enough to start an occurrence holds `pat[0]`. */
  lemma MissingStart(t: string, pat: string)
    requires 0 < |pat| <= |t| && pat[0] !in t[..|t| - |pat| + 1]
    ensures !Contains(t, pat)
  {
  }
}

=== FILE: wrappers.dfy ===
/** Failure-carrying datatypes shared by the rest of the model. */
module Wrappers {

  /** A value that may be missing. */
  datatype Option<+T> = None | Some(value: T)

  /** Either a value or an error description. */
  datatype Result<+R, +E> = Success(value: R) | Failure(error: E)
}
